=== FILE: README.md ===
# RotaJá API core in Dafny

RotaJá is a CEP (Brazilian postal code) aggregation API. Given an origin and a
destination CEP, it asks a routing service for the route. It thins the route's
points down to at most 30 checkpoints and reverse-geocodes each checkpoint. It
keeps one segment per street and attaches traffic and weather data. It can also
save the result behind a password. Almost all of that is HTTP glue. This project
models the four pieces that hold real logic, as pure functions over immutable
values, and proves what they guarantee:

- **Route point sampler** (`comprimir_pontos_da_rota`, module `RouteSampler`).
  Python's `round()` on the float `i * step` is modelled as the exact rational
  `i * (n - 1) / (k - 1)` rounded half-to-even.
- **Decimal separator swap** (`formatar_numero`, module `NumberFormat`). This is the
  three `str.replace` passes that exchange `.` and `,` through the placeholder `&`.
- **Full-route handler pieces** (module `TripRouter`). These are the forecast-days
  range check, the ceiling conversion of seconds to minutes, and the filter that
  projects each reverse-geocoding response to five fields and keeps one segment per
  known street. `PlanRoute` chains them with the sampler. The routing result and the
  reverse geocoder are parameters.
- **Password-gated trajectory store** (`TrajetoService.add` / `get`, module
  `TrajetoStore`). The table is a map from UUID to (password hash, route document).
  The argon2 hasher is a parameter that satisfies a soundness predicate. The UUID
  drawn by `uuid4()` is an argument.

app/main.py holds older copies of the sampler, the separator swap and the handler.
Module `LegacyMain` models those copies loop by loop, as methods. Each method is
proved to compute exactly what the functional model of the newer copy computes.

Facts about the code that the model follows, and that a reader might not expect:

- `comprimir_pontos_da_rota` raises `ZeroDivisionError` when `max_ceps == 1` and
  there are at least two points. It raises `IndexError` when `max_ceps <= 0` and the
  route is not empty. Both become `SamplerError` values.
- With exact rounding, a route longer than the cap (with `max_ceps >= 2`) yields
  exactly `max_ceps` points, never fewer (`CompressLongRoute`). The step exceeds 1, so
  the rounded indices strictly increase and deduplication removes nothing.
- `TrajetoService.get` catches only `VerifyMismatchError`. Any other argon2 failure
  propagates (`StoreError.VerificationError`). `GetFailureIsNotFound` shows this
  cannot happen on a table built by `add`.
- `TrajetoService` defines only `add` and `get`. The insight and delete operations
  the routers call are not defined in the service, and the `Trajeto` table has no
  insights column.

## Model

| member | source | states |
|---|---|---|
| RouteSampler.RoundHalfEven | app/utils.py:26 | the rounded index is within half a step of the exact position, and a tie goes to the even neighbour (Python 3 `round`) |
| RouteSampler.RoundHalfEvenUnique | app/utils.py:26 | those two conditions determine the rounded value: any integer meeting them is it |
| RouteSampler.RoundHalfEvenExact | app/utils.py:23-26 | an exact multiple rounds to itself, so position `0` gives index 0 and position `(k-1)*step` gives index `n-1` |
| RouteSampler.RoundHalfEvenMonotone | app/utils.py:23-26 | rounding never reverses the order of two positions |
| RouteSampler.RoundHalfEvenStrict | app/utils.py:23-26 | positions more than one unit apart round to different indices |
| RouteSampler.NoTieOddDenominator | app/utils.py:23-26 | with an odd `k - 1`, such as the handler's cap of 30, no exact position is a tie: the rounded index is strictly within half a step |
| RouteSampler.ComputedIndex | app/utils.py:26-30 | every computed index is clamped into `[0, n-1]` |
| RouteSampler.Indices | app/utils.py:24-31 | the first loop yields one index per `i in range(k)`, none when `k <= 0`, and every one is a valid position |
| RouteSampler.Dedup | app/utils.py:33-38 | after the `seen` loop, the list holds exactly the values of the input, with no value twice, and is no longer than the input; its order is fixed by `DedupFirstOccurrences` |
| RouteSampler.DedupDistinct | app/utils.py:33-38 | on a list without repeats the `seen` loop changes nothing |
| RouteSampler.FirstPositions | app/utils.py:33-38 | reference rule: the positions whose value does not occur earlier in the list, in strictly increasing order |
| RouteSampler.DedupFirstOccurrences | app/utils.py:33-38 | the `seen` loop's output is the input read at the reference positions: the first occurrence of every value, in the order those first occurrences appear |
| RouteSampler.WithEndpoints | app/utils.py:39-42 | the fix-up raises on an empty list; otherwise the result starts with 0 and ends with `n-1`, adds no other index, grows by at most two, and leaves a list that already has both ends untouched |
| RouteSampler.WithEndpointsKeepsMiddle | app/utils.py:39-42 | the fix-up only inserts at the two ends, and only what is missing: the deduplicated list appears unchanged in the result, right after the inserted 0 if there is one, and the result is longer by exactly one for each end the list lacks |
| RouteSampler.SampleIndices | app/utils.py:22-42 | the final index list fails exactly when `k <= 0`; otherwise it is non-empty, starts at 0, ends at `n-1` and only holds valid positions |
| RouteSampler.Pick | app/utils.py:44 | `[pontos[i] for i in unique_indices]` has one entry per chosen index, and entry `j` is the point at the `j`-th index |
| RouteSampler.PickKeepsEnds | app/utils.py:39-44 | once the fix-up has put 0 first and `n-1` last, the picked points start with the route's first point, end with its last, and come from the route |
| RouteSampler.Compress | app/utils.py:15-45 | empty in gives empty out; a route of at most `max_ceps` points comes back unchanged; the division and index errors happen exactly for `max_ceps == 1` and `max_ceps <= 0`; whatever the rounding, each result is a route point and the first and last points are kept |
| RouteSampler.IndicesExact | app/utils.py:22-31 | with exact rounding and `n > k >= 2` the clamp never fires, and the indices strictly increase from 0 to `n-1` |
| RouteSampler.CompressLongRoute | app/utils.py:22-45 | a route longer than the cap yields exactly `max_ceps` points, in route order, from the first point to the last; deduplication and the fix-up are inert |
| NumberFormat.Replace | app/utils.py:9-11 | one `str.replace` pass keeps the length and replaces exactly the occurrences of one character |
| NumberFormat.FormatNumber | app/utils.py:8-12 | the three passes keep the length and act per character: `.` becomes `,`, `,` becomes `.`, `&` becomes `,`, and every other character is unchanged |
| NumberFormat.FormatNumberInvolution | app/utils.py:8-12 | on strings without `&`, formatting twice returns the input |
| NumberFormat.PlaceholderCollides | app/utils.py:9-11 | a `&` already in the input is lost: `1&5` and `1.5` both format to `1,5` |
| TripRouter.Lookup | app/routers/trajeto.py:108-114 | a projected field is the address value when the response has an address with that key, and `não fornecido` otherwise |
| TripRouter.Project | app/routers/trajeto.py:108-114 | a response without an `address` gives a segment that is `não fornecido` in all five fields |
| TripRouter.ProjectReadsAddress | app/routers/trajeto.py:108-114 | with an address, `rua`, `bairro`, `cidade`, `estado` and `cep` are read from `road`, `neighbourhood`, `town`, `state` and `postcode`, each `não fornecido` when its key is missing |
| TripRouter.ProjectAll | app/routers/trajeto.py:107-114 | one projected segment per response, in response order |
| TripRouter.StreetTaken | app/routers/trajeto.py:119-122 | the `any(...)` is false on an empty list, so the `not trechos_filtrados` test before it never changes the outcome |
| TripRouter.StreetTakenAppend | app/routers/trajeto.py:116-122 | after appending a segment, a street is taken exactly when it was taken before or is the appended segment's street |
| TripRouter.Step | app/routers/trajeto.py:115-126 | one iteration appends the segment or leaves the list alone; it appends exactly when the street is unknown or not yet taken; afterwards a known street is always taken |
| TripRouter.Scan | app/routers/trajeto.py:106-126 | the filter loop never lengthens the list and keeps only segments of the input |
| TripRouter.FilterStreets | app/routers/trajeto.py:106-126 | the filter never lengthens the list and keeps only input segments; `FilterStreetsKeepsFirstOccurrences` says which |
| TripRouter.KeptIndices | app/routers/trajeto.py:115-126 | reference rule: a position survives exactly when its street is unknown or no earlier input segment has its street; positions strictly increase |
| TripRouter.ScanStreet | app/routers/trajeto.py:115-124 | for one known street, after any number of iterations the kept list holds that street exactly when some earlier input segment has it |
| TripRouter.ScanStreets | app/routers/trajeto.py:115-124 | the `any(...)` test against the kept segments answers the same as a test against every earlier input segment, for every known street |
| TripRouter.ScanSelectsKept | app/routers/trajeto.py:106-126 | after each iteration, the loop's list is the input restricted to the reference rule's positions |
| TripRouter.FilterStreetsKeepsFirstOccurrences | app/routers/trajeto.py:106-126 | the output is an order-preserving subsequence of the input that holds every unknown-street segment and the first segment of each known street, and nothing else |
| TripRouter.FilterStreetsDistinctKnown | app/routers/trajeto.py:115-124 | no two kept segments share a known street |
| TripRouter.FilterStreetsCoversStreets | app/routers/trajeto.py:107-126 | a known street is present after filtering if and only if it was present in the input |
| TripRouter.MinutesFromSeconds | app/routers/trajeto.py:36-38 | the minutes are the least whole number covering the seconds: `60*(m-1) < s <= 60*m` |
| TripRouter.MinutesFromSecondsNonNegative | app/routers/trajeto.py:81-83 | for non-negative seconds the ceiling equals `(s + 59) / 60` |
| TripRouter.CheckForecastDays | app/routers/trajeto.py:62-66 | a forecast length is accepted if and only if it lies in 1..14; otherwise the answer is the 400 error carrying the given value |
| TripRouter.PlanRoute | app/routers/trajeto.py:62-126 | a bad forecast length is rejected whatever the route; otherwise the minutes are the ceiling of the travel time, at most 30 segments are reported, and each is the projected response for a route point |
| TripRouter.ReverseAll | app/routers/trajeto.py:100-104 | one reverse-geocoding response per sampled point, in point order |
| TripRouter.SampledAtMostCap | app/routers/trajeto.py:97-99 | the sampler with its default cap of 30 never fails and returns at most 30 points |
| TripRouter.SegmentsFromPoints | app/routers/trajeto.py:100-126 | every reported segment is the projection of the reverse-geocoding response for a sampled point, and so for a point of the route |
| TripRouter.PlanRouteKeepsStreets | app/routers/trajeto.py:96-126 | with a valid forecast length the sampler succeeds, and every known street in the response for any sampled point shows up in the reported route: the filter drops repeats, never a street |
| TripRouter.PlanRouteDistinctKnown | app/routers/trajeto.py:106-126 | with a valid forecast length, no two reported segments share a known street |
| TrajetoStore.Add | app/services/trajeto.py:17-24 | a fresh id adds exactly one row, holding the hash of the password and the given route, and leaves every other row unchanged; the caller gets the id, the plaintext password and the route back; an id already in use fails the commit |
| TrajetoStore.Get | app/services/trajeto.py:26-37 | a row is returned without its hash exactly when the id exists and the password verifies; an unknown id and a mismatch are the same 404; any other verification failure is a different error |
| TrajetoStore.AddPreservesWellFormed | app/services/trajeto.py:18 | with a sound hasher, saving keeps every stored hash checkable |
| TrajetoStore.GetAfterAdd | app/services/trajeto.py:17-31 | round trip: reading the returned id with the same password gives back the saved route |
| TrajetoStore.GetWrongPasswordAfterAdd | app/services/trajeto.py:26-37 | reading a just-saved row with any other password gives the 404 |
| TrajetoStore.AddKeepsOtherGets | app/services/trajeto.py:17-20 | saving changes no answer `get` gives for any other id |
| TrajetoStore.GetFailureIsNotFound | app/services/trajeto.py:29-37 | on a well-formed table, `get` fails only with the 404, and it fails exactly when the id is missing or the password does not verify |
| TrajetoStore.Replay | app/services/trajeto.py:17-24 | a run of saves never removes or changes an existing row |
| TrajetoStore.ReplayWellFormed | app/services/trajeto.py:17-37 | every table reachable by saves from a well-formed one (the empty one in particular) stays well formed |
| LegacyMain.ReplaceAll | app/main.py:346-348 | the scanning loop computes exactly one `str.replace` pass |
| LegacyMain.FormatarNumero | app/main.py:345-349 | the main.py copy computes exactly what the app/utils.py separator swap computes |
| LegacyMain.ComputeIndices | app/main.py:359-368 | the first loop builds exactly the clamped index list |
| LegacyMain.UniqueIndices | app/main.py:370-375 | the `seen` loop builds exactly the first-occurrence deduplication |
| LegacyMain.PickPoints | app/main.py:381 | the comprehension picks the points at the chosen indices, in order |
| LegacyMain.AddEndpoints | app/main.py:376-379 | the main.py endpoint fix-up computes exactly the app/utils.py one, including the `IndexError` on an empty list |
| LegacyMain.ComprimirPontosDaRota | app/main.py:352-382 | the main.py sampler copy returns exactly what the app/utils.py sampler returns, errors included |
| LegacyMain.ReverseGeocodeAll | app/main.py:252-256 | one reverse-geocoding response is collected per sampled point, in order |
| LegacyMain.AnyStreet | app/main.py:271-274 | the `any(...)` scan answers true exactly when some kept segment has the given street |
| LegacyMain.AppendIfNew | app/main.py:267-277 | one iteration of the main.py filter loop performs exactly the router's keep-or-drop step |
| LegacyMain.FiltrarTrechos | app/main.py:258-278 | the main.py street filter, with `any(...)` as an inner loop, returns exactly the router's filter output |
| LegacyMain.CalcularTrajetoCompleto | app/main.py:208-278 | the main.py handler gives the 400 for a forecast length outside 1..14 and otherwise the same minutes and segments as the router's handler |

## Left out

- Outbound HTTP: ViaCEP, LocationIQ, Overpass, TomTom, WeatherAPI, Gemini and googletrans. This covers app/routers/cep.py, app/routers/insights.py and the handlers' request building and response reshaping. The route points, the travel time and the reverse geocoder enter `PlanRoute` as parameters.
- The per-segment traffic and weather enrichment of app/routers/trajeto.py:127-154. It is made only of external calls, translation and date reformatting through `strptime`/`strftime`.
- `limpar_resposta` (app/utils.py:4-5): a faithful model needs Python `re` semantics, with multiline anchors and `\s*` matching across newlines.
- Floating point: the hours figure `round(s / 3600, 2)`, the kilometre figure `lengthInMeters / 1000`, and `str(float)` for temperatures.
- RouteSampler.Compress: the float `step = (n - 1) / (k - 1)` is replaced by exact rationals. The float `i * step` is often inexact, even for short routes (n = 8, k = 7 gives step 7/6). Away from a tie, the exact position is at least `1 / (2 * (k - 1))` from a half-integer, while the float error is below about `(n - 1) * 2^-51`. So `round` gives the model's index for every route of fewer than 2^25 points. An exact tie needs the reduced denominator of `(n - 1) / (k - 1)` to be even. There, a float a hair off the half-integer can round the other way from the model's half-to-even choice. With the handler's cap of 30, `k - 1 = 29` is odd, so no tie occurs (`NoTieOddDenominator`). This float argument is not proved in the model.
- TripRouter.MinutesFromSeconds: `travelTimeInSeconds / 60` is float division in the source. The model is exact, which agrees with it for integer seconds below 2^53.
- Argon2 internals: the hasher is a parameter, and `Sound` states only that a hash verifies exactly its own password. Salting is not modelled, so hashing is a function of the password alone.
- `uuid4()` randomness: the drawn id is an argument of `Add`. A draw that collides with a stored id fails the commit.
- Database sessions, commits, table creation, settings and dependency wiring (app/database/*, app/apis/config.py, app/dependencies.py). Each store operation is one atomic step on an immutable map, and async/await is not modelled.
- Insight attach, fetch and delete, and trajectory delete. The routers call `add_trajeto`, `get_trajeto`, `delete_trajeto`, `add_insight`, `get_insight` and `delete_insight`, but the service defines none of them, and the table has no insights column. The `model_dump` call that the router makes on the dictionary `get` returns is not modelled either.
- Saving the report after the filter (`service.add_trajeto` in the handler) is not chained into `PlanRoute`. The store is modelled on its own.
- TripRouter.Geocoded: a response is modelled as an object whose `address` is absent or a string-to-string map. Two error paths of the source cannot be represented. A response body that is not a JSON object breaks `trecho.get`. A response with `"address": null` makes `.get(...)` raise `AttributeError` at app/routers/trajeto.py:109 (app/main.py:261 in the copy). Neither is modelled.

=== FILE: legacy_main.dfy ===
/** The copies in app/main.py of the sampler, the separator swap and the full-route
    handler's pure pieces. They are modelled here loop by loop; the loop bodies reuse
    the functional pieces (the clamped index, the projection of a response), and each
    method is proved to compute exactly what the functional model of the app/utils.py
    or app/routers/trajeto.py original computes. */
module LegacyMain {
  import opened Results
  import RouteSampler
  import NumberFormat
  import TripRouter

  /** One `texto.replace(a, b)` pass, scanning the string left to right. */
  method ReplaceAll(s: string, a: char, b: char) returns (r: string)
    ensures r == NumberFormat.Replace(s, a, b)
  {
    r := [];
    var i := 0;
    while i < |s|
      invariant 0 <= i <= |s|
      invariant |r| == i
      invariant forall j :: 0 <= j < i ==> r[j] == (if s[j] == a then b else s[j])
    {
      r := r + [if s[i] == a then b else s[i]];
      i := i + 1;
    }
  }

  /** `formatar_numero` of main.py: the same three passes as the utils version. */
  method FormatarNumero(texto: string) returns (r: string)
    ensures r == NumberFormat.FormatNumber(texto)
  {
    r := ReplaceAll(texto, '.', '&');
    r := ReplaceAll(r, ',', '.');
    r := ReplaceAll(r, '&', ',');
  }

  /** The first loop of `comprimir_pontos_da_rota`: `indices` for `i in range(k)`. */
  method ComputeIndices(n: int, k: int) returns (indices: seq<int>)
    requires n >= 1 && k != 1
    ensures indices == RouteSampler.Indices(n, k)
  {
    indices := [];
    var i := 0;
    while i < k
      invariant k >= 2 ==> 0 <= i <= k
      invariant k < 2 ==> i == 0
      invariant indices == RouteSampler.Indices(n, k)[..i]
    {
      indices := indices + [RouteSampler.ComputedIndex(i, n, k)];
      i := i + 1;
    }
  }

  /** The second loop: keep the first occurrence of every index, tracked in `seen`. */
  method UniqueIndices(indices: seq<int>) returns (unique: seq<int>)
    ensures unique == RouteSampler.Dedup(indices, |indices|)
  {
    var seen: set<int> := {};
    unique := [];
    var j := 0;
    while j < |indices|
      invariant 0 <= j <= |indices|
      invariant unique == RouteSampler.Dedup(indices, j)
      invariant forall x :: x in seen <==> x in unique
    {
      var idx := indices[j];
      if idx !in seen {
        seen := seen + {idx};
        unique := unique + [idx];
      }
      j := j + 1;
    }
  }

  /** The closing comprehension `[pontos[i] for i in unique_indices]`. */
  method PickPoints<P>(pontos: seq<P>, sel: seq<int>) returns (filtrado: seq<P>)
    requires forall j :: 0 <= j < |sel| ==> 0 <= sel[j] < |pontos|
    ensures filtrado == RouteSampler.Pick(pontos, sel)
  {
    filtrado := [];
    var t := 0;
    while t < |sel|
      invariant 0 <= t <= |sel|
      invariant filtrado == RouteSampler.Pick(pontos, sel[..t])
    {
      assert sel[..t + 1] == sel[..t] + [sel[t]];
      RouteSampler.PickAppend(pontos, sel[..t], sel[t]);
      filtrado := filtrado + [pontos[sel[t]]];
      t := t + 1;
    }
    assert sel[..t] == sel;
  }

  /** The endpoint fix-up: `unique_indices[0]` raises on an empty list, then 0 is put
      in front and `n - 1` at the end where missing. */
  method AddEndpoints(unique: seq<int>, n: int) returns (r: Result<seq<int>, RouteSampler.SamplerError>)
    ensures r == RouteSampler.WithEndpoints(unique, n)
  {
    if |unique| == 0 {
      return Err(RouteSampler.IndexOutOfRange);
    }
    var u := unique;
    if u[0] != 0 {
      u := [0] + u;
    }
    if u[|u| - 1] != n - 1 {
      u := u + [n - 1];
    }
    return Ok(u);
  }

  /** `comprimir_pontos_da_rota` of main.py. */
  method ComprimirPontosDaRota<P(==)>(pontos: seq<P>, maxCeps: int)
    returns (r: Result<seq<P>, RouteSampler.SamplerError>)
    ensures r == RouteSampler.Compress(pontos, maxCeps)
  {
    var n := |pontos|;
    if n == 0 {
      return Ok([]);
    }
    if n <= maxCeps {
      return Ok(pontos);
    }
    var k := maxCeps;
    if k == 1 {
      return Err(RouteSampler.ZeroDivision);
    }
    var indices := ComputeIndices(n, k);
    var unique := UniqueIndices(indices);
    var sel := AddEndpoints(unique, n);
    if sel.Err? {
      return Err(sel.error);
    }
    assert RouteSampler.SampleIndices(n, k) == sel;
    var filtrado := PickPoints(pontos, sel.value);
    return Ok(filtrado);
  }

  /** The `any(...)` generator: scans the kept segments for one with the given street. */
  method AnyStreet(filtrados: seq<TripRouter.Trecho>, rua: string) returns (found: bool)
    ensures found <==> TripRouter.StreetTaken(filtrados, rua)
  {
    found := false;
    var m := 0;
    while m < |filtrados|
      invariant 0 <= m <= |filtrados|
      invariant found <==> exists q :: 0 <= q < m && filtrados[q].rua == rua
    {
      if filtrados[m].rua == rua {
        found := true;
      }
      m := m + 1;
    }
  }

  /** One iteration of the street filter: a segment with a known street is appended
      only when no kept segment has that street; any other segment is appended. */
  method AppendIfNew(filtrados: seq<TripRouter.Trecho>, t: TripRouter.Trecho)
    returns (r: seq<TripRouter.Trecho>)
    ensures r == TripRouter.Step(filtrados, t)
  {
    r := filtrados;
    if t.rua != TripRouter.NaoFornecido {
      var found := AnyStreet(filtrados, t.rua);
      if |filtrados| == 0 || !found {
        r := filtrados + [t];
      }
    } else {
      r := filtrados + [t];
    }
  }

  /** The street filter of main.py over the raw responses, with the `any(...)` of the
      source as an inner loop over the segments kept so far. */
  method FiltrarTrechos(trechos: seq<TripRouter.Geocoded>) returns (filtrados: seq<TripRouter.Trecho>)
    ensures filtrados == TripRouter.FilterStreets(TripRouter.ProjectAll(trechos))
  {
    ghost var ts := TripRouter.ProjectAll(trechos);
    filtrados := [];
    var i := 0;
    while i < |trechos|
      invariant 0 <= i <= |trechos|
      invariant filtrados == TripRouter.Scan(ts, i)
    {
      var t := TripRouter.Project(trechos[i]);
      assert t == ts[i];
      filtrados := AppendIfNew(filtrados, t);
      i := i + 1;
    }
  }

  /** The loop that reverse-geocodes every sampled point, one request per point. */
  method ReverseGeocodeAll<P>(sampled: seq<P>, reverse: P -> TripRouter.Geocoded)
    returns (trechos: seq<TripRouter.Geocoded>)
    ensures trechos == TripRouter.ReverseAll(sampled, reverse)
  {
    trechos := [];
    var i := 0;
    while i < |sampled|
      invariant 0 <= i <= |sampled|
      invariant trechos == TripRouter.ReverseAll(sampled[..i], reverse)
    {
      trechos := trechos + [reverse(sampled[i])];
      i := i + 1;
    }
    assert sampled[..i] == sampled;
  }

  /** `calcular_trajeto_completo` of main.py from the range check to the filtered route,
      with the routing and reverse-geocoding services as parameters. */
  method CalcularTrajetoCompleto<P(==)>(
    dias: int, travelSeconds: int, points: seq<P>, reverse: P -> TripRouter.Geocoded)
    returns (r: Result<TripRouter.RouteReport, TripRouter.HandlerError>)
    ensures r == TripRouter.PlanRoute(dias, travelSeconds, points, reverse)
  {
    if dias < 1 || dias > 14 {
      return Err(TripRouter.ForecastDaysOutOfRange(dias));
    }
    assert TripRouter.CheckForecastDays(dias) == Ok(dias);
    var minutos := TripRouter.MinutesFromSeconds(travelSeconds);
    var rotaFiltrada := ComprimirPontosDaRota(points, TripRouter.MaxCheckpoints);
    TripRouter.SampledAtMostCap(points);
    var sampled := rotaFiltrada.value;
    var trechos := ReverseGeocodeAll(sampled, reverse);
    var rota := FiltrarTrechos(trechos);
    r := Ok(TripRouter.RouteReport(minutos, rota));
    assert r == TripRouter.PlanRoute(dias, travelSeconds, points, reverse);
  }
}

=== FILE: number_format.dfy ===
/** `formatar_numero` of app/utils.py: turns Python's `str(float)` rendering into the
    Brazilian one by exchanging the decimal point and the thousands comma, in three
    `str.replace` passes with `&` as the temporary placeholder. */
module NumberFormat {

  /** `s.replace(a, b)` for single characters: every occurrence of `a` becomes `b`. */
  function Replace(s: string, a: char, b: char): (r: string)
    ensures |r| == |s|
    ensures forall i :: 0 <= i < |s| ==> r[i] == (if s[i] == a then b else s[i])
  {
    if |s| == 0 then []
    else (if s[0] == a then [b] else [s[0]]) + Replace(s[1..], a, b)
  }

  /** What the three passes do to a single character. */
  function SwapSeparator(c: char): char {
    if c == '.' then ','
    else if c == ',' then '.'
    else if c == '&' then ','
    else c
  }

  /** The three passes `.` to `&`, `,` to `.`, `&` to `,` act character by character as
      SwapSeparator: points and commas trade places, a `&` already in the input also
      ends up as a comma, and nothing else changes. */
  function FormatNumber(s: string): (r: string)
    ensures |r| == |s|
    ensures forall i :: 0 <= i < |s| ==> r[i] == SwapSeparator(s[i])
  {
    Replace(Replace(Replace(s, '.', '&'), ',', '.'), '&', ',')
  }

  /** Formatting twice gives the input back, as long as it holds no `&`. */
  lemma FormatNumberInvolution(s: string)
    requires '&' !in s
    ensures FormatNumber(FormatNumber(s)) == s
  {
    var once := FormatNumber(s);
    var twice := FormatNumber(once);
    forall i | 0 <= i < |s| ensures twice[i] == s[i] {
      assert s[i] != '&';
    }
  }

  /** A `&` in the input is not preserved: it collides with a decimal point. */
  lemma PlaceholderCollides()
    ensures FormatNumber("1&5") == FormatNumber("1.5") == "1,5"
  {
    assert FormatNumber("1&5")[1] == ',';
    assert FormatNumber("1.5")[1] == ',';
  }
}

=== FILE: results.dfy ===
/** Failure-carrying values shared by the whole model: the source's exceptions and
    missing dictionary keys become explicit `Err` and `None` values. */
module Results {

  datatype Option<+T> = None | Some(value: T)

  datatype Result<+T, +E> = Ok(value: T) | Err(error: E)
}

=== FILE: route_sampler.dfy ===
/** The route point sampler `comprimir_pontos_da_rota` of app/utils.py: it thins an
    ordered list of route points down to at most `max_ceps` entries, keeping both ends,
    so that the route handler performs a bounded number of reverse-geocoding lookups.

    The source computes `step = (n - 1) / (k - 1)` as a float and rounds `i * step`
    with Python's `round()`. Here the index is the exact rational `i * (n - 1) / (k - 1)`
    rounded half-to-even, which is what `round()` does on exact values; the float
    error of `step` is abstracted away. */
module RouteSampler {
  import opened Results

  /** The two ways the source raises instead of returning a list. */
  datatype SamplerError =
    | ZeroDivision     // `(n - 1) / (k - 1)` with `k == 1`
    | IndexOutOfRange  // `unique_indices[0]` on an empty list, when `k <= 0`

  function Abs(x: int): nat {
    if x < 0 then -x else x
  }

  predicate Distinct(xs: seq<int>) {
    forall i, j :: 0 <= i < j < |xs| ==> xs[i] != xs[j]
  }

  predicate StrictlyIncreasing(xs: seq<int>) {
    forall i, j :: 0 <= i < j < |xs| ==> xs[i] < xs[j]
  }

  /** Python 3's `round()` on the exact rational `num / den`: the nearest integer,
      and on a tie the even one of the two neighbours. */
  function RoundHalfEven(num: int, den: int): (r: int)
    requires den > 0
    ensures 2 * Abs(num - r * den) <= den
    ensures 2 * Abs(num - r * den) == den ==> r % 2 == 0
  {
    var q := num / den;
    var rem := num % den;
    assert num - q * den == rem;
    assert num - (q + 1) * den == rem - den;
    if 2 * rem < den then q
    else if 2 * rem > den then q + 1
    else if q % 2 == 0 then q
    else q + 1
  }

  lemma MulMonotone(a: int, b: int, c: int)
    requires a <= b && c >= 0
    ensures a * c <= b * c
  {
    assert b * c - a * c == (b - a) * c;
  }

  lemma MulCancel(a: int, b: int, c: int)
    requires c > 0 && a * c < b * c
    ensures a < b
  {
    if a >= b {
      MulMonotone(b, a, c);
    }
  }

  /** RoundHalfEven's distance bound with the absolute value unfolded. */
  lemma RoundBounds(num: int, den: int)
    requires den > 0
    ensures 2 * num - den <= 2 * (RoundHalfEven(num, den) * den) <= 2 * num + den
  {
  }

  lemma Distrib(a: int, b: int, c: int)
    ensures (a - b) * c == a * c - b * c
  {
  }

  lemma DivMod(num: int, den: int)
    requires den > 0
    ensures num == (num / den) * den + num % den
  {
  }

  /** An integer `t * den + rem` with `0 <= rem < den` lies within `den / 2` of zero
      only for `t == 0` or `t == -1`. */
  lemma NearZero(t: int, den: int, rem: int)
    requires 0 <= rem < den
    requires 2 * Abs(t * den + rem) <= den
    ensures t == 0 || t == -1
  {
    if t >= 1 {
      MulMonotone(1, t, den);
    } else if t <= -2 {
      MulMonotone(t, -2, den);
    }
  }

  /** The two conditions of RoundHalfEven's contract pin its result down: any integer
      that is within half of `den` of `num`, and even on a tie, is the rounded value. */
  lemma RoundHalfEvenUnique(num: int, den: int, r: int)
    requires den > 0
    requires 2 * Abs(num - r * den) <= den
    requires 2 * Abs(num - r * den) == den ==> r % 2 == 0
    ensures r == RoundHalfEven(num, den)
  {
    var q, rem := num / den, num % den;
    DivMod(num, den);
    Distrib(q, r, den);
    NearZero(q - r, den, rem);
  }

  lemma RoundHalfEvenExact(m: int, den: int)
    requires den > 0
    ensures RoundHalfEven(m * den, den) == m
  {
    RoundHalfEvenUnique(m * den, den, m);
  }

  /** Rounding never reverses the order of its arguments. */
  lemma RoundHalfEvenMonotone(a: int, b: int, den: int)
    requires den > 0 && a <= b
    ensures RoundHalfEven(a, den) <= RoundHalfEven(b, den)
  {
    if a < b {
      var ra, rb := RoundHalfEven(a, den), RoundHalfEven(b, den);
      RoundBounds(a, den);
      RoundBounds(b, den);
      Distrib(rb + 1, 1, den);
      MulCancel(ra, rb + 1, den);
    }
  }

  /** Values more than one denominator apart round to different integers. */
  lemma RoundHalfEvenStrict(a: int, b: int, den: int)
    requires den > 0 && b - a > den
    ensures RoundHalfEven(a, den) < RoundHalfEven(b, den)
  {
    var ra, rb := RoundHalfEven(a, den), RoundHalfEven(b, den);
    RoundBounds(a, den);
    RoundBounds(b, den);
    MulCancel(ra, rb, den);
  }

  /** A tie needs `2 * (num - r * den) == den`, so with an odd denominator there is
      none: the rounded value is strictly nearer than half. The route handler's cap of
      30 gives the odd denominator `k - 1 == 29`. */
  lemma NoTieOddDenominator(num: int, den: int)
    requires den > 0 && den % 2 == 1
    ensures 2 * Abs(num - RoundHalfEven(num, den) * den) < den
  {
    var d := num - RoundHalfEven(num, den) * den;
    assert (2 * Abs(d)) % 2 == 0;
  }

  /** One pass of the first loop: `int(round(i * step))` clamped into `[0, n - 1]`. */
  function ComputedIndex(i: int, n: int, k: int): (idx: int)
    requires n >= 1 && k >= 2
    ensures 0 <= idx < n
  {
    var raw := RoundHalfEven(i * (n - 1), k - 1);
    if raw < 0 then 0 else if raw > n - 1 then n - 1 else raw
  }

  /** The list `indices` built by `for i in range(k)`; `range(k)` is empty when `k <= 0`. */
  function Indices(n: int, k: int): (xs: seq<int>)
    requires n >= 1 && k != 1
    ensures |xs| == if k <= 0 then 0 else k
    ensures forall j :: 0 <= j < |xs| ==> 0 <= xs[j] < n
  {
    if k <= 0 then [] else seq(k, i requires 0 <= i < k => ComputedIndex(i, n, k))
  }

  /** The first `m` entries of `xs` with every later repeat of a value dropped: the
      `seen`/`unique_indices` loop after `m` iterations. */
  function Dedup(xs: seq<int>, m: nat): (u: seq<int>)
    requires m <= |xs|
    ensures forall x :: x in u <==> x in xs[..m]
    ensures Distinct(u)
    ensures |u| <= m
  {
    if m == 0 then []
    else
      var d := Dedup(xs, m - 1);
      assert xs[..m] == xs[..m - 1] + [xs[m - 1]];
      if xs[m - 1] in d then d else d + [xs[m - 1]]
  }

  /** Deduplicating a list that has no repeats changes nothing. */
  lemma {:induction false} DedupDistinct(xs: seq<int>, m: nat)
    requires m <= |xs| && Distinct(xs[..m])
    ensures Dedup(xs, m) == xs[..m]
  {
    if m > 0 {
      assert xs[..m] == xs[..m - 1] + [xs[m - 1]];
      DedupDistinct(xs, m - 1);
    }
  }

  /** Reference rule for the `seen` loop: the positions among the first `m` whose value
      does not occur earlier in the list, in increasing order. */
  function FirstPositions(xs: seq<int>, m: nat): (ps: seq<int>)
    requires m <= |xs|
    ensures forall t :: 0 <= t < |ps| ==> 0 <= ps[t] < m
    ensures StrictlyIncreasing(ps)
    ensures forall p :: 0 <= p < m ==> (p in ps <==> xs[p] !in xs[..p])
  {
    if m == 0 then []
    else FirstPositions(xs, m - 1) + (if xs[m - 1] !in xs[..m - 1] then [m - 1] else [])
  }

  /** The `seen` loop keeps the first occurrence of every value, in the order of those
      first occurrences: its output is the input read at the reference positions. */
  lemma {:induction false} DedupFirstOccurrences(xs: seq<int>, m: nat)
    requires m <= |xs|
    ensures Dedup(xs, m) == Pick(xs, FirstPositions(xs, m))
  {
    if m > 0 {
      DedupFirstOccurrences(xs, m - 1);
      var d := Dedup(xs, m - 1);
      var ps := FirstPositions(xs, m - 1);
      assert xs[m - 1] in d <==> xs[m - 1] in xs[..m - 1];
      if xs[m - 1] !in xs[..m - 1] {
        assert FirstPositions(xs, m) == ps + [m - 1];
        assert Dedup(xs, m) == d + [xs[m - 1]];
        PickAppend(xs, ps, m - 1);
      } else {
        assert FirstPositions(xs, m) == ps;
        assert Dedup(xs, m) == d;
      }
    }
  }

  /** Lines 39-42: put index 0 in front and index `n - 1` at the end when the
      deduplicated list does not already start and end with them. */
  function WithEndpoints(u: seq<int>, n: int): (r: Result<seq<int>, SamplerError>)
    ensures r.Err? <==> |u| == 0
    ensures r.Err? ==> r.error == IndexOutOfRange
    ensures r.Ok? ==> |u| <= |r.value| <= |u| + 2
    ensures r.Ok? ==> r.value[0] == 0 && r.value[|r.value| - 1] == n - 1
    ensures r.Ok? ==> forall x :: x in r.value <==> x in u || x == 0 || x == n - 1
    ensures r.Ok? && u[0] == 0 && u[|u| - 1] == n - 1 ==> r.value == u
    ensures r.Ok? && n >= 1 && (forall j :: 0 <= j < |u| ==> 0 <= u[j] < n) ==>
      forall j :: 0 <= j < |r.value| ==> 0 <= r.value[j] < n
  {
    if |u| == 0 then Err(IndexOutOfRange)
    else
      var front := if u[0] != 0 then [0] + u else u;
      var both := if front[|front| - 1] != n - 1 then front + [n - 1] else front;
      Ok(both)
  }

  /** The fix-up only adds at the ends, and only what is missing: the deduplicated list
      sits unchanged in the result, right after the inserted 0 when there is one, and the
      result grows by one for each end the list lacks. */
  lemma WithEndpointsKeepsMiddle(u: seq<int>, n: int)
    requires |u| > 0
    ensures WithEndpoints(u, n).Ok?
    ensures |WithEndpoints(u, n).value| ==
      |u| + (if u[0] != 0 then 1 else 0) + (if u[|u| - 1] != n - 1 then 1 else 0)
    ensures var r := WithEndpoints(u, n).value;
      var f := if u[0] != 0 then 1 else 0;
      f + |u| <= |r| && r[f..f + |u|] == u
  {
    var front := if u[0] != 0 then [0] + u else u;
    assert front[|front| - 1] != n - 1 ==> (front + [n - 1])[..|front|] == front;
  }

  lemma DedupBounded(xs: seq<int>, n: int)
    requires forall j :: 0 <= j < |xs| ==> 0 <= xs[j] < n
    ensures forall j :: 0 <= j < |Dedup(xs, |xs|)| ==> 0 <= Dedup(xs, |xs|)[j] < n
  {
    var u := Dedup(xs, |xs|);
    assert xs[..|xs|] == xs;
    forall j | 0 <= j < |u| ensures 0 <= u[j] < n {
      assert u[j] in xs;
    }
  }

  /** The final index list of the sampler for `n >= 1` points and cap `k`. */
  function SampleIndices(n: int, k: int): (r: Result<seq<int>, SamplerError>)
    requires n >= 1 && k != 1
    ensures r.Err? <==> k <= 0
    ensures r.Err? ==> r.error == IndexOutOfRange
    ensures r.Ok? ==> |r.value| > 0 && r.value[0] == 0 && r.value[|r.value| - 1] == n - 1
    ensures r.Ok? ==> forall j :: 0 <= j < |r.value| ==> 0 <= r.value[j] < n
  {
    var xs := Indices(n, k);
    var u := Dedup(xs, |xs|);
    assert xs[..|xs|] == xs;
    assert |xs| > 0 ==> xs[0] in u;
    DedupBounded(xs, n);
    WithEndpoints(u, n)
  }

  /** `[pontos[i] for i in sel]`. */
  function Pick<P>(pontos: seq<P>, sel: seq<int>): (r: seq<P>)
    requires forall j :: 0 <= j < |sel| ==> 0 <= sel[j] < |pontos|
    ensures |r| == |sel|
    ensures forall j :: 0 <= j < |sel| ==> r[j] == pontos[sel[j]]
  {
    seq(|sel|, j requires 0 <= j < |sel| => pontos[sel[j]])
  }

  lemma PickAppend<P>(pontos: seq<P>, sel: seq<int>, i: int)
    requires forall j :: 0 <= j < |sel| ==> 0 <= sel[j] < |pontos|
    requires 0 <= i < |pontos|
    ensures Pick(pontos, sel + [i]) == Pick(pontos, sel) + [pontos[i]]
  {
  }

  lemma PickFromRoute<P>(pontos: seq<P>, sel: seq<int>)
    requires forall j :: 0 <= j < |sel| ==> 0 <= sel[j] < |pontos|
    ensures forall x :: x in Pick(pontos, sel) ==> x in pontos
  {
    forall x | x in Pick(pontos, sel) ensures x in pontos {
      var j :| 0 <= j < |sel| && Pick(pontos, sel)[j] == x;
      assert pontos[sel[j]] == x;
    }
  }

  /** Picking an index list that starts at 0 and ends at the last position keeps the
      route's first and last points, and picks nothing from outside the route. */
  lemma PickKeepsEnds<P>(pontos: seq<P>, sel: seq<int>)
    requires forall j :: 0 <= j < |sel| ==> 0 <= sel[j] < |pontos|
    requires |sel| > 0 && sel[0] == 0 && sel[|sel| - 1] == |pontos| - 1
    ensures |Pick(pontos, sel)| > 0
    ensures Pick(pontos, sel)[0] == pontos[0]
    ensures Pick(pontos, sel)[|Pick(pontos, sel)| - 1] == pontos[|pontos| - 1]
    ensures forall x :: x in Pick(pontos, sel) ==> x in pontos
  {
    PickFromRoute(pontos, sel);
  }

  /** `comprimir_pontos_da_rota(pontos, max_ceps)`. Whatever the rounding, every point
      returned is a point of the route and the first and last route points are kept. */
  function Compress<P(==)>(pontos: seq<P>, maxCeps: int): (r: Result<seq<P>, SamplerError>)
    ensures |pontos| == 0 ==> r == Ok([])
    ensures 0 < |pontos| <= maxCeps ==> r == Ok(pontos)
    ensures r == Err(ZeroDivision) <==> |pontos| > 1 && maxCeps == 1
    ensures r == Err(IndexOutOfRange) <==> |pontos| > 0 && maxCeps <= 0
    ensures r.Ok? && |pontos| > 0 ==>
      && |r.value| > 0
      && r.value[0] == pontos[0]
      && r.value[|r.value| - 1] == pontos[|pontos| - 1]
    ensures r.Ok? ==> forall x :: x in r.value ==> x in pontos
  {
    var n := |pontos|;
    if n == 0 then Ok([])
    else if n <= maxCeps then Ok(pontos)
    else if maxCeps == 1 then Err(ZeroDivision)
    else
      match SampleIndices(n, maxCeps)
      case Err(e) =>
        assert maxCeps <= 0 && e == IndexOutOfRange;
        Err(e)
      case Ok(sel) =>
        PickKeepsEnds(pontos, sel);
        Ok(Pick(pontos, sel))
  }

  /** With exact arithmetic the computed indices need no clamping, start at 0, end at
      `n - 1`, and strictly increase, because the step `(n - 1) / (k - 1)` exceeds 1. */
  lemma IndicesExact(n: int, k: int)
    requires n > k >= 2
    ensures forall j :: 0 <= j < k ==> Indices(n, k)[j] == RoundHalfEven(j * (n - 1), k - 1)
    ensures StrictlyIncreasing(Indices(n, k))
    ensures Indices(n, k)[0] == 0 && Indices(n, k)[k - 1] == n - 1
  {
    var xs := Indices(n, k);
    RoundHalfEvenExact(0, k - 1);
    RoundHalfEvenExact(n - 1, k - 1);
    assert (n - 1) * (k - 1) == (k - 1) * (n - 1);
    forall j | 0 <= j < k
      ensures xs[j] == RoundHalfEven(j * (n - 1), k - 1)
    {
      MulMonotone(0, j, n - 1);
      MulMonotone(j, k - 1, n - 1);
      RoundHalfEvenMonotone(0, j * (n - 1), k - 1);
      RoundHalfEvenMonotone(j * (n - 1), (k - 1) * (n - 1), k - 1);
    }
    forall i, j | 0 <= i < j < k
      ensures xs[i] < xs[j]
    {
      MulMonotone(1, j - i, n - 1);
      assert j * (n - 1) - i * (n - 1) == (j - i) * (n - 1);
      RoundHalfEvenStrict(i * (n - 1), j * (n - 1), k - 1);
    }
  }

  /** The sampler on a route longer than the cap returns exactly `max_ceps` points: the
      point at the rounded position `j * (n - 1) / (k - 1)` for each `j`, in route order,
      from the first point to the last. Deduplication and the endpoint fix-up change
      nothing under exact arithmetic. */
  lemma CompressLongRoute<P>(pontos: seq<P>, maxCeps: int)
    requires |pontos| > maxCeps >= 2
    ensures Compress(pontos, maxCeps).Ok?
    ensures |Compress(pontos, maxCeps).value| == maxCeps
    ensures forall j :: 0 <= j < maxCeps ==>
      Compress(pontos, maxCeps).value[j] == pontos[Indices(|pontos|, maxCeps)[j]]
    ensures StrictlyIncreasing(Indices(|pontos|, maxCeps))
    ensures Compress(pontos, maxCeps).value[0] == pontos[0]
    ensures Compress(pontos, maxCeps).value[maxCeps - 1] == pontos[|pontos| - 1]
  {
    var n := |pontos|;
    var xs := Indices(n, maxCeps);
    IndicesExact(n, maxCeps);
    assert xs[..|xs|] == xs;
    DedupDistinct(xs, |xs|);
    assert SampleIndices(n, maxCeps) == Ok(xs);
    var r := Pick(pontos, xs);
    assert Compress(pontos, maxCeps) == Ok(r);
    assert |r| == maxCeps;
  }
}

=== FILE: trajeto_store.dfy ===
/** `TrajetoService.add` and `TrajetoService.get` of app/services/trajeto.py: a table
    of saved trajectories keyed by a random UUID, each row holding an argon2 hash of
    the password chosen at save time and the route document. Reading a row back needs
    the password; a wrong password and an unknown id give the same 404 answer.

    The database table becomes an immutable map and every operation one atomic step.
    The argon2 hasher is a parameter with an abstract soundness condition, and the
    UUID that `uuid4()` draws is an argument of `Add`. */
module TrajetoStore {
  import opened Results

  /** A 128-bit UUID. */
  type Uuid = x: int | 0 <= x < 0x1_0000_0000_0000_0000_0000_0000_0000_0000

  /** What argon2's `verify` does: return normally, raise `VerifyMismatchError`, or
      raise another verification error (a malformed or unreadable hash). */
  datatype Verdict = Verified | Mismatch | Malformed

  /** The password hasher `ph`: `hash` produces the stored string, `verify` checks a
      candidate password against it. */
  datatype Hasher<!H> = Hasher(hash: string -> H, verify: (H, string) -> Verdict)

  /** A hasher whose own hashes verify exactly the password they were made from. */
  ghost predicate Sound<H(!new)>(h: Hasher<H>) {
    forall p, q :: h.verify(h.hash(p), q) == if p == q then Verified else Mismatch
  }

  /** One row of the `Trajeto` table: the hashed password and the route document. */
  datatype Trajeto<H, D> = Trajeto(senha: H, dadosTrajeto: D)

  type Store<H, D> = map<Uuid, Trajeto<H, D>>

  /** What `add` returns: the lookup data (`id`, plaintext `senha`) and the route. */
  datatype Saved<D> = Saved(id: Uuid, senha: string, trajeto: D)

  /** What `get` returns: the row dumped without its `senha` column. */
  datatype Retrieved<D> = Retrieved(id: Uuid, dadosTrajeto: D)

  datatype StoreError =
    | NotFound           // HTTP 404: no such id, or the password does not verify
    | DuplicateKey       // the commit fails: the drawn UUID is already a primary key
    | VerificationError  // argon2 fails for a reason other than a mismatch

  /** `add(senha, trajeto)` with `newId` the UUID drawn by `uuid4()`. The new row holds
      the hash of the password, never the password, and no other row changes. */
  function Add<H, D>(h: Hasher<H>, s: Store<H, D>, newId: Uuid, senha: string, trajeto: D)
    : (r: Result<(Store<H, D>, Saved<D>), StoreError>)
    ensures r.Err? <==> newId in s
    ensures r.Err? ==> r.error == DuplicateKey
    ensures r.Ok? ==> r.value.0.Keys == s.Keys + {newId}
    ensures r.Ok? ==> forall k :: k in s ==> r.value.0[k] == s[k]
    ensures r.Ok? ==> r.value.0[newId].senha == h.hash(senha)
    ensures r.Ok? ==> r.value.0[newId].dadosTrajeto == trajeto
    ensures r.Ok? ==> r.value.1 == Saved(newId, senha, trajeto)
  {
    if newId in s then Err(DuplicateKey)
    else Ok((s[newId := Trajeto(h.hash(senha), trajeto)], Saved(newId, senha, trajeto)))
  }

  /** `get(id, senha)`. A row is returned only when it exists and the password verifies;
      a missing row and a mismatch are the same 404. Only `VerifyMismatchError` is
      caught, so any other verification failure surfaces as a different error. */
  function Get<H, D>(h: Hasher<H>, s: Store<H, D>, id: Uuid, senha: string)
    : (r: Result<Retrieved<D>, StoreError>)
    ensures r.Ok? <==> id in s && h.verify(s[id].senha, senha) == Verified
    ensures r.Ok? ==> r.value == Retrieved(id, s[id].dadosTrajeto)
    ensures r == Err(NotFound) <==> id !in s || h.verify(s[id].senha, senha) == Mismatch
    ensures r == Err(VerificationError) <==> id in s && h.verify(s[id].senha, senha) == Malformed
  {
    if id !in s then Err(NotFound)
    else
      match h.verify(s[id].senha, senha)
      case Verified => Ok(Retrieved(id, s[id].dadosTrajeto))
      case Mismatch => Err(NotFound)
      case Malformed => Err(VerificationError)
  }

  /** A stored hash that argon2 can always check. */
  ghost predicate Checkable<H(!new)>(h: Hasher<H>, x: H) {
    forall q :: h.verify(x, q) != Malformed
  }

  /** Every row's hash can be checked: true of every table built by `Add`. */
  ghost predicate WellFormed<H(!new), D>(h: Hasher<H>, s: Store<H, D>) {
    forall k :: k in s ==> Checkable(h, s[k].senha)
  }

  /** Saving a trajectory keeps every row checkable. */
  lemma AddPreservesWellFormed<H(!new), D>(h: Hasher<H>, s: Store<H, D>, newId: Uuid, senha: string, trajeto: D)
    requires Sound(h) && WellFormed(h, s)
    ensures Add(h, s, newId, senha, trajeto).Ok? ==> WellFormed(h, Add(h, s, newId, senha, trajeto).value.0)
  {
    if newId !in s {
      var s' := Add(h, s, newId, senha, trajeto).value.0;
      forall k | k in s' ensures Checkable(h, s'[k].senha) {
        if k == newId {
          forall q ensures h.verify(s'[k].senha, q) != Malformed {
            assert s'[k].senha == h.hash(senha);
          }
        } else {
          assert s'[k] == s[k];
        }
      }
    }
  }

  /** Round trip: what was saved under the returned id reads back with the same
      password, and the route document is the one saved. */
  lemma GetAfterAdd<H(!new), D>(h: Hasher<H>, s: Store<H, D>, newId: Uuid, senha: string, trajeto: D)
    requires Sound(h)
    requires newId !in s
    ensures Add(h, s, newId, senha, trajeto).Ok?
    ensures Get(h, Add(h, s, newId, senha, trajeto).value.0, Add(h, s, newId, senha, trajeto).value.1.id, senha)
      == Ok(Retrieved(newId, trajeto))
  {
    var s' := Add(h, s, newId, senha, trajeto).value.0;
    assert h.verify(s'[newId].senha, senha) == Verified;
  }

  /** Any other password is refused with the same 404 as an unknown id. */
  lemma GetWrongPasswordAfterAdd<H(!new), D>(
    h: Hasher<H>, s: Store<H, D>, newId: Uuid, senha: string, trajeto: D, other: string)
    requires Sound(h)
    requires newId !in s && other != senha
    ensures Add(h, s, newId, senha, trajeto).Ok?
    ensures Get(h, Add(h, s, newId, senha, trajeto).value.0, newId, other) == Err(NotFound)
  {
    var s' := Add(h, s, newId, senha, trajeto).value.0;
    assert h.verify(s'[newId].senha, other) == Mismatch;
  }

  /** Saving a trajectory changes no answer `get` gives about any other id. */
  lemma AddKeepsOtherGets<H, D>(
    h: Hasher<H>, s: Store<H, D>, newId: Uuid, senha: string, trajeto: D, id: Uuid, candidate: string)
    requires newId !in s && id != newId
    ensures Add(h, s, newId, senha, trajeto).Ok?
    ensures Get(h, Add(h, s, newId, senha, trajeto).value.0, id, candidate) == Get(h, s, id, candidate)
  {
  }

  /** On a table built by `Add` a failed `get` is always the 404 and never says whether
      the id exists: it fails exactly when no row has that id and password. */
  lemma GetFailureIsNotFound<H(!new), D>(h: Hasher<H>, s: Store<H, D>, id: Uuid, senha: string)
    requires WellFormed(h, s)
    ensures Get(h, s, id, senha).Err? ==> Get(h, s, id, senha) == Err(NotFound)
    ensures Get(h, s, id, senha).Err? <==> id !in s || h.verify(s[id].senha, senha) != Verified
  {
    if id in s {
      assert Checkable(h, s[id].senha);
      assert h.verify(s[id].senha, senha) != Malformed;
    }
  }

  /** One `add` call: the UUID drawn for it, the password and the route. */
  datatype AddCall<D> = AddCall(newId: Uuid, senha: string, trajeto: D)

  /** The table after a run of `add` calls; a call whose commit fails leaves it as it was. */
  function Replay<H, D>(h: Hasher<H>, s: Store<H, D>, calls: seq<AddCall<D>>): (s': Store<H, D>)
    ensures s.Keys <= s'.Keys
    ensures forall k :: k in s ==> s'[k] == s[k]
    decreases |calls|
  {
    if |calls| == 0 then s
    else
      var c := calls[0];
      match Add(h, s, c.newId, c.senha, c.trajeto)
      case Ok((next, _)) => Replay(h, next, calls[1..])
      case Err(_) => Replay(h, s, calls[1..])
  }

  /** Starting from a well-formed table, the empty one in particular, every table the
      service reaches is well formed, so on it `get` only ever answers with a row or
      with the 404. */
  lemma {:induction false} ReplayWellFormed<H(!new), D>(h: Hasher<H>, s: Store<H, D>, calls: seq<AddCall<D>>)
    requires Sound(h) && WellFormed(h, s)
    ensures WellFormed(h, Replay(h, s, calls))
    decreases |calls|
  {
    if |calls| > 0 {
      var c := calls[0];
      AddPreservesWellFormed(h, s, c.newId, c.senha, c.trajeto);
      match Add(h, s, c.newId, c.senha, c.trajeto)
      case Ok((next, _)) => ReplayWellFormed(h, next, calls[1..]);
      case Err(_) => ReplayWellFormed(h, s, calls[1..]);
    }
  }
}

=== FILE: trip_router.dfy ===
/** The pure pieces of the full-route handler `calcular_trajeto_completo` in
    app/routers/trajeto.py: the forecast-days range check, the travel-time conversion
    to whole minutes, and the filter that keeps one reverse-geocoded segment per known
    street. The HTTP calls of the handler are parameters: the route's points arrive as
    a sequence and reverse geocoding is a function from a point to its response. */
module TripRouter {
  import opened Results
  import RouteSampler

  /** The default the handler writes into every address field that is missing. */
  const NaoFornecido: string := "não fornecido"

  /** The sampler is called with its default cap `max_ceps = 30`. */
  const MaxCheckpoints: int := 30

  const MinForecastDays: int := 1
  const MaxForecastDays: int := 14

  /** The five fields projected out of a reverse-geocoding response. */
  datatype Trecho = Trecho(rua: string, bairro: string, cidade: string, estado: string, cep: string)

  /** A reverse-geocoding response; only its optional `address` object is read. */
  datatype Geocoded = Geocoded(address: Option<map<string, string>>)

  /** The handler's errors: HTTP 400 for a forecast length outside 1..14. */
  datatype HandlerError = ForecastDaysOutOfRange(informado: int)

  /** The handler's result before the optional save: travel time in whole minutes and
      the filtered segments. */
  datatype RouteReport = RouteReport(tempoEstimadoEmMinutos: int, rota: seq<Trecho>)

  /** `trecho.get("address", {}).get(key, "não fornecido")`. */
  function Lookup(g: Geocoded, key: string): (v: string)
    ensures g.address.Some? && key in g.address.value ==> v == g.address.value[key]
    ensures g.address.None? || key !in g.address.value ==> v == NaoFornecido
  {
    match g.address
    case None => NaoFornecido
    case Some(address) => if key in address then address[key] else NaoFornecido
  }

  /** The `trecho_filtrado` dictionary built from one response. A response without an
      address gives a segment that is unknown in every field. */
  function Project(g: Geocoded): (t: Trecho)
    ensures g.address.None? ==>
      t == Trecho(NaoFornecido, NaoFornecido, NaoFornecido, NaoFornecido, NaoFornecido)
  {
    Trecho(
      Lookup(g, "road"),
      Lookup(g, "neighbourhood"),
      Lookup(g, "town"),
      Lookup(g, "state"),
      Lookup(g, "postcode"))
  }

  /** With an address, each field is read from its own key: `road`, `neighbourhood`,
      `town`, `state` and `postcode`, in that order, and a missing key reads as unknown. */
  lemma ProjectReadsAddress(g: Geocoded, a: map<string, string>)
    requires g.address == Some(a)
    ensures Project(g).rua == (if "road" in a then a["road"] else NaoFornecido)
    ensures Project(g).bairro == (if "neighbourhood" in a then a["neighbourhood"] else NaoFornecido)
    ensures Project(g).cidade == (if "town" in a then a["town"] else NaoFornecido)
    ensures Project(g).estado == (if "state" in a then a["state"] else NaoFornecido)
    ensures Project(g).cep == (if "postcode" in a then a["postcode"] else NaoFornecido)
  {
  }

  /** `any(trecho_filtrado["rua"] == trecho["rua"] for trecho in trechos_filtrados)`.
      No street is taken in an empty list, so the source's extra `not trechos_filtrados`
      test never changes the outcome. */
  predicate StreetTaken(kept: seq<Trecho>, rua: string)
    ensures |kept| == 0 ==> !StreetTaken(kept, rua)
  {
    exists t :: t in kept && t.rua == rua
  }

  lemma StreetTakenAppend(kept: seq<Trecho>, t: Trecho, s: string)
    ensures StreetTaken(kept + [t], s) <==> StreetTaken(kept, s) || t.rua == s
  {
    if StreetTaken(kept + [t], s) {
      var u :| u in kept + [t] && u.rua == s;
    }
    assert t in kept + [t];
    if StreetTaken(kept, s) {
      var u :| u in kept && u.rua == s;
      assert u in kept + [t];
    }
  }

  lemma StreetTakenAppendAll(kept: seq<Trecho>, t: Trecho)
    ensures forall s :: StreetTaken(kept + [t], s) <==> StreetTaken(kept, s) || t.rua == s
  {
    forall s ensures StreetTaken(kept + [t], s) <==> StreetTaken(kept, s) || t.rua == s {
      StreetTakenAppend(kept, t, s);
    }
  }

  /** One iteration of the filter loop: a segment with an unknown street is always
      appended, one with a known street only when no kept segment has that street. */
  function Step(kept: seq<Trecho>, t: Trecho): (r: seq<Trecho>)
    ensures r == kept || r == kept + [t]
    ensures r == kept + [t] <==> t.rua == NaoFornecido || !StreetTaken(kept, t.rua)
    ensures t.rua != NaoFornecido ==> StreetTaken(r, t.rua)
  {
    StreetTakenAppendAll(kept, t);
    assert |kept + [t]| != |kept|;
    if t.rua != NaoFornecido then
      if |kept| == 0 || !StreetTaken(kept, t.rua) then kept + [t] else kept
    else
      kept + [t]
  }

  /** The list `trechos_filtrados` after the loop has seen the first `n` segments. */
  function Scan(ts: seq<Trecho>, n: nat): (r: seq<Trecho>)
    requires n <= |ts|
    ensures |r| <= n
    ensures forall t :: t in r ==> t in ts[..n]
  {
    if n == 0 then []
    else
      var prev := Scan(ts, n - 1);
      assert ts[..n] == ts[..n - 1] + [ts[n - 1]];
      Step(prev, ts[n - 1])
  }

  /** The street deduplication filter of lines 106-126. */
  function FilterStreets(ts: seq<Trecho>): (r: seq<Trecho>)
    ensures |r| <= |ts|
    ensures forall t :: t in r ==> t in ts
  {
    assert ts[..|ts|] == ts;
    Scan(ts, |ts|)
  }

  /** No earlier segment of the input has the street of segment `i`. */
  predicate FirstOfStreet(ts: seq<Trecho>, i: int)
    requires 0 <= i < |ts|
  {
    forall j :: 0 <= j < i ==> ts[j].rua != ts[i].rua
  }

  /** The reference rule: segment `i` survives when its street is unknown or it is the
      first segment of the input on its street. */
  predicate Kept(ts: seq<Trecho>, i: int)
    requires 0 <= i < |ts|
  {
    ts[i].rua == NaoFornecido || FirstOfStreet(ts, i)
  }

  /** The positions among the first `n` that the reference rule keeps, in order. */
  function KeptIndices(ts: seq<Trecho>, n: nat): (idx: seq<int>)
    requires n <= |ts|
    ensures forall j :: 0 <= j < |idx| ==> 0 <= idx[j] < n
    ensures RouteSampler.StrictlyIncreasing(idx)
    ensures forall i :: 0 <= i < n ==> (i in idx <==> Kept(ts, i))
  {
    if n == 0 then []
    else KeptIndices(ts, n - 1) + (if Kept(ts, n - 1) then [n - 1] else [])
  }

  /** Some segment among the first `n` of the input is on street `s`. */
  predicate StreetBefore(ts: seq<Trecho>, n: int, s: string)
    requires 0 <= n <= |ts|
  {
    exists j :: 0 <= j < n && ts[j].rua == s
  }

  /** Comparing against the kept segments is the same as comparing against the whole
      input prefix, because the first segment of every known street is kept. */
  lemma {:induction false} ScanStreet(ts: seq<Trecho>, n: nat, s: string)
    requires n <= |ts| && s != NaoFornecido
    ensures StreetTaken(Scan(ts, n), s) <==> StreetBefore(ts, n, s)
  {
    if n > 0 {
      ScanStreet(ts, n - 1, s);
      var prev := Scan(ts, n - 1);
      var t := ts[n - 1];
      assert Scan(ts, n) == Step(prev, t);
      if t.rua == s {
        assert StreetTaken(Step(prev, t), s);
        assert ts[n - 1].rua == s;
      } else {
        StreetTakenAppend(prev, t, s);
        if StreetBefore(ts, n, s) {
          var j :| 0 <= j < n && ts[j].rua == s;
          assert j != n - 1;
          assert StreetBefore(ts, n - 1, s);
        }
        if StreetBefore(ts, n - 1, s) {
          var j :| 0 <= j < n - 1 && ts[j].rua == s;
          assert StreetBefore(ts, n, s);
        }
      }
    }
  }

  /** ScanStreet for every known street at once. */
  lemma {:induction false} ScanStreets(ts: seq<Trecho>, n: nat)
    requires n <= |ts|
    ensures forall s :: s != NaoFornecido ==> (StreetTaken(Scan(ts, n), s) <==> StreetBefore(ts, n, s))
  {
    forall s | s != NaoFornecido
      ensures StreetTaken(Scan(ts, n), s) <==> StreetBefore(ts, n, s)
    {
      ScanStreet(ts, n, s);
    }
  }

  /** A segment the reference rule keeps is appended by the loop. */
  lemma ScanKeepsNext(ts: seq<Trecho>, n: nat)
    requires 0 < n <= |ts| && Kept(ts, n - 1)
    ensures Scan(ts, n) == Scan(ts, n - 1) + [ts[n - 1]]
  {
    var t := ts[n - 1];
    if t.rua != NaoFornecido {
      ScanStreet(ts, n - 1, t.rua);
      assert !StreetBefore(ts, n - 1, t.rua);
    }
    assert Scan(ts, n) == Step(Scan(ts, n - 1), t);
  }

  /** A segment the reference rule drops is skipped by the loop. */
  lemma ScanDropsNext(ts: seq<Trecho>, n: nat)
    requires 0 < n <= |ts| && !Kept(ts, n - 1)
    ensures Scan(ts, n) == Scan(ts, n - 1)
  {
    var t := ts[n - 1];
    var prev := Scan(ts, n - 1);
    assert t.rua != NaoFornecido && !FirstOfStreet(ts, n - 1);
    var j :| 0 <= j < n - 1 && ts[j].rua == t.rua;
    assert StreetBefore(ts, n - 1, t.rua);
    ScanStreet(ts, n - 1, t.rua);
    assert StreetTaken(prev, t.rua);
    assert Scan(ts, n) == Step(prev, t);
  }

  /** Where the reference rule keeps the next segment, both sides grow by it. */
  lemma SelectsKeptGrow(ts: seq<Trecho>, n: nat)
    requires 0 < n <= |ts| && Kept(ts, n - 1)
    requires Scan(ts, n - 1) == RouteSampler.Pick(ts, KeptIndices(ts, n - 1))
    ensures Scan(ts, n) == RouteSampler.Pick(ts, KeptIndices(ts, n))
  {
    var idx := KeptIndices(ts, n - 1);
    ScanKeepsNext(ts, n);
    assert KeptIndices(ts, n) == idx + [n - 1];
    RouteSampler.PickAppend(ts, idx, n - 1);
  }

  /** Where the reference rule drops the next segment, neither side changes. */
  lemma SelectsKeptSkip(ts: seq<Trecho>, n: nat)
    requires 0 < n <= |ts| && !Kept(ts, n - 1)
    requires Scan(ts, n - 1) == RouteSampler.Pick(ts, KeptIndices(ts, n - 1))
    ensures Scan(ts, n) == RouteSampler.Pick(ts, KeptIndices(ts, n))
  {
    ScanDropsNext(ts, n);
    assert KeptIndices(ts, n) == KeptIndices(ts, n - 1);
  }

  /** So the loop selects exactly the positions of the reference rule. */
  lemma {:induction false} ScanSelectsKept(ts: seq<Trecho>, n: nat)
    requires n <= |ts|
    ensures Scan(ts, n) == RouteSampler.Pick(ts, KeptIndices(ts, n))
  {
    if n > 0 {
      ScanSelectsKept(ts, n - 1);
      if Kept(ts, n - 1) {
        SelectsKeptGrow(ts, n);
      } else {
        SelectsKeptSkip(ts, n);
      }
    }
  }

  /** The filter's output is the input restricted to the positions the reference rule
      keeps, in input order: every unknown-street segment and the first segment of each
      known street, and nothing else. */
  lemma FilterStreetsKeepsFirstOccurrences(ts: seq<Trecho>)
    ensures FilterStreets(ts) == RouteSampler.Pick(ts, KeptIndices(ts, |ts|))
    ensures RouteSampler.StrictlyIncreasing(KeptIndices(ts, |ts|))
    ensures forall i :: 0 <= i < |ts| ==>
      (i in KeptIndices(ts, |ts|) <==> ts[i].rua == NaoFornecido || FirstOfStreet(ts, i))
  {
    ScanSelectsKept(ts, |ts|);
  }

  /** Among the kept segments, no two share a known street. */
  lemma FilterStreetsDistinctKnown(ts: seq<Trecho>)
    ensures forall i, j :: 0 <= i < j < |FilterStreets(ts)| && FilterStreets(ts)[i].rua != NaoFornecido ==>
      FilterStreets(ts)[i].rua != FilterStreets(ts)[j].rua
  {
    var r := FilterStreets(ts);
    var idx := KeptIndices(ts, |ts|);
    ScanSelectsKept(ts, |ts|);
    forall i, j | 0 <= i < j < |r| && r[i].rua != NaoFornecido
      ensures r[i].rua != r[j].rua
    {
      assert r[i] == ts[idx[i]] && r[j] == ts[idx[j]];
      assert idx[i] < idx[j];
      assert idx[j] in idx;
      if r[j].rua != NaoFornecido {
        assert FirstOfStreet(ts, idx[j]);
      }
    }
  }

  /** Every known street of the input is still present after filtering, and no street
      appears that the input did not have. */
  lemma FilterStreetsCoversStreets(ts: seq<Trecho>, s: string)
    requires s != NaoFornecido
    ensures StreetTaken(FilterStreets(ts), s) <==> StreetTaken(ts, s)
  {
    ScanStreet(ts, |ts|, s);
    if StreetTaken(ts, s) {
      var t :| t in ts && t.rua == s;
      var j :| 0 <= j < |ts| && ts[j] == t;
    }
  }

  /** `ceil(travelTimeInSeconds / 60)`: the least whole number of minutes that covers the
      travel time. */
  function MinutesFromSeconds(seconds: int): (m: int)
    ensures 60 * (m - 1) < seconds <= 60 * m
  {
    -((-seconds) / 60)
  }

  /** For a non-negative travel time the ceiling is the usual `(s + 59) / 60`. */
  lemma MinutesFromSecondsNonNegative(seconds: int)
    requires seconds >= 0
    ensures MinutesFromSeconds(seconds) == (seconds + 59) / 60
  {
  }

  /** `dias_previsao_clima < 1 or dias_previsao_clima > 14` raises HTTP 400. */
  function CheckForecastDays(dias: int): (r: Result<int, HandlerError>)
    ensures r.Ok? <==> MinForecastDays <= dias <= MaxForecastDays
    ensures r.Ok? ==> r.value == dias
    ensures r.Err? ==> r.error == ForecastDaysOutOfRange(dias)
  {
    if dias < MinForecastDays || dias > MaxForecastDays then Err(ForecastDaysOutOfRange(dias))
    else Ok(dias)
  }

  /** The `trecho_filtrado` projection of every response, in order. */
  function ProjectAll(responses: seq<Geocoded>): (r: seq<Trecho>)
    ensures |r| == |responses|
    ensures forall i :: 0 <= i < |responses| ==> r[i] == Project(responses[i])
  {
    seq(|responses|, i requires 0 <= i < |responses| => Project(responses[i]))
  }

  /** One reverse-geocoding response per sampled point, in order. */
  function ReverseAll<P>(sampled: seq<P>, reverse: P -> Geocoded): (r: seq<Geocoded>)
    ensures |r| == |sampled|
    ensures forall i :: 0 <= i < |sampled| ==> r[i] == reverse(sampled[i])
  {
    seq(|sampled|, i requires 0 <= i < |sampled| => reverse(sampled[i]))
  }

  /** The handler from the range check to the filtered route, with the route points and
      the travel time as the routing service returned them and reverse geocoding as a
      parameter. A bad forecast length is rejected whatever the route; otherwise at most
      30 points are looked up and every reported segment comes from one of them. */
  function PlanRoute<P(==)>(dias: int, travelSeconds: int, points: seq<P>, reverse: P -> Geocoded)
    : (r: Result<RouteReport, HandlerError>)
    ensures r.Err? <==> dias < MinForecastDays || dias > MaxForecastDays
    ensures r.Err? ==> r.error == ForecastDaysOutOfRange(dias)
    ensures r.Ok? ==> |r.value.rota| <= MaxCheckpoints
    ensures r.Ok? ==> 60 * (r.value.tempoEstimadoEmMinutos - 1) < travelSeconds <= 60 * r.value.tempoEstimadoEmMinutos
    ensures r.Ok? ==> forall t :: t in r.value.rota ==> exists p :: p in points && t == Project(reverse(p))
  {
    match CheckForecastDays(dias)
    case Err(e) => Err(e)
    case Ok(_) =>
      var sampled := RouteSampler.Compress(points, MaxCheckpoints).value;
      var rota := FilterStreets(ProjectAll(ReverseAll(sampled, reverse)));
      SampledAtMostCap(points);
      SegmentsFromPoints(points, sampled, reverse);
      Ok(RouteReport(MinutesFromSeconds(travelSeconds), rota))
  }

  /** Every filtered segment is the projected response for one of the sampled points,
      and so for one of the route's points. */
  lemma SegmentsFromPoints<P>(points: seq<P>, sampled: seq<P>, reverse: P -> Geocoded)
    requires forall p :: p in sampled ==> p in points
    ensures forall t :: t in FilterStreets(ProjectAll(ReverseAll(sampled, reverse))) ==>
      exists p :: p in sampled && t == Project(reverse(p))
    ensures forall t :: t in FilterStreets(ProjectAll(ReverseAll(sampled, reverse))) ==>
      exists p :: p in points && t == Project(reverse(p))
  {
    var segments := ProjectAll(ReverseAll(sampled, reverse));
    forall t | t in FilterStreets(segments)
      ensures exists p :: p in sampled && t == Project(reverse(p))
      ensures exists p :: p in points && t == Project(reverse(p))
    {
      var i :| 0 <= i < |segments| && segments[i] == t;
      assert sampled[i] in sampled;
    }
  }

  /** The sampler with the default cap never fails and never returns more than 30 points. */
  lemma SampledAtMostCap<P>(points: seq<P>)
    ensures RouteSampler.Compress(points, MaxCheckpoints).Ok?
    ensures |RouteSampler.Compress(points, MaxCheckpoints).value| <= MaxCheckpoints
  {
    if |points| > MaxCheckpoints {
      RouteSampler.CompressLongRoute(points, MaxCheckpoints);
    }
  }

  /** Every known street of a sampled point's response is reported by the handler. */
  lemma PlanRouteKeepsStreets<P>(dias: int, travelSeconds: int, points: seq<P>, reverse: P -> Geocoded)
    requires MinForecastDays <= dias <= MaxForecastDays
    ensures RouteSampler.Compress(points, MaxCheckpoints).Ok?
    ensures PlanRoute(dias, travelSeconds, points, reverse).Ok?
    ensures forall p ::
      (p in RouteSampler.Compress(points, MaxCheckpoints).value && Project(reverse(p)).rua != NaoFornecido) ==>
        StreetTaken(PlanRoute(dias, travelSeconds, points, reverse).value.rota, Project(reverse(p)).rua)
  {
    SampledAtMostCap(points);
    var sampled := RouteSampler.Compress(points, MaxCheckpoints).value;
    var segments := ProjectAll(ReverseAll(sampled, reverse));
    assert PlanRoute(dias, travelSeconds, points, reverse).value.rota == FilterStreets(segments);
    forall p | p in sampled && Project(reverse(p)).rua != NaoFornecido
      ensures StreetTaken(FilterStreets(segments), Project(reverse(p)).rua)
    {
      var i :| 0 <= i < |sampled| && sampled[i] == p;
      assert segments[i] == Project(reverse(p));
      assert segments[i] in segments;
      FilterStreetsCoversStreets(segments, Project(reverse(p)).rua);
    }
  }

  /** No two segments the handler reports share a known street. */
  lemma PlanRouteDistinctKnown<P>(dias: int, travelSeconds: int, points: seq<P>, reverse: P -> Geocoded)
    requires MinForecastDays <= dias <= MaxForecastDays
    ensures PlanRoute(dias, travelSeconds, points, reverse).Ok?
    ensures var rota := PlanRoute(dias, travelSeconds, points, reverse).value.rota;
      forall i, j :: 0 <= i < j < |rota| && rota[i].rua != NaoFornecido ==> rota[i].rua != rota[j].rua
  {
    var sampled := RouteSampler.Compress(points, MaxCheckpoints).value;
    var segments := ProjectAll(ReverseAll(sampled, reverse));
    FilterStreetsDistinctKnown(segments);
    assert PlanRoute(dias, travelSeconds, points, reverse).value.rota == FilterStreets(segments);
  }
}
